=== FILE: README.md ===
# Vtr::Refinement — index mapping, tags and accessors

This project models the data layout and accessors of OpenSubdiv's `Vtr::Refinement`. That is the
object relating a coarse parent level of a subdivision mesh to the finer child level refined from it.
The model covers:

- **Index views** (`IndexArrays`). An `IndexArray` is a window `(backing, start, size)` into a
  shared index vector. Its read-only view is the sequence of entries it shows; its mutable view
  writes through to the backing vector. A *counts-and-offsets* table stores, for component `i`, the
  number of entries at `2*i` and their start offset at `2*i+1`. A table is *packed* when its windows
  follow one another from 0 with no gaps. The refinement may share these tables with the level.
  The model does not assume that they are packed; the frame lemmas that need packing take it as a
  hypothesis.
- **Tags and options** (`Bits`, `Tags`). `Options`, `SparseTag`, `ChildTag` and `Relations` are
  records whose fields have the width of the C++ bitfields. Storing an integer into a field keeps it
  modulo 2^width. `Relations::setAll` is `Tags.SetAll`.
- **The refinement record and its accessors** (`Refinements`). This covers the inventory of child
  counts and first offsets, the parent-to-child and child-to-parent tables, and the child tags.
  It also covers the read-only and mutable accessors for the child faces and child edges of a face,
  and the child edges of an edge. The counts, first-child offsets, `getFaceChildVertex`,
  `getEdgeChildVertex`, `getVertexChildVertex`, `getChildFaceParentFace`,
  `getChildEdgeParentIndex` and `getChildVertexParentIndex` are plain field or vector reads. They
  appear here as functions without a contract of their own. Their rows in the table name the
  lemmas of `Mapping` that state what they promise.
- **Agreement of the two mapping directions** (`Mapping`). Each slot of a parent's child list holds
  either the invalid sentinel or a child whose parent entry points back at that parent, and whose
  tag's two-bit index equals the slot when the parent has at most four children (the index part).
  Separately, the child's tag may name the parent's kind (the kind part). Under the index part
  alone, looking up the parent of a listed child returns the parent it was listed under, and no
  child is listed twice under parents of one kind. Telling apart children of parents of different
  kinds needs the kind part. Assuming `OrderedLayout` (face-born, then
  edge-born, then vertex-born children in the child index space), the module also shows that the
  origin ranges the inventory describes are disjoint and cover 0 .. total-1.

Views are bounds-checked slices of immutable sequences. A write through a mutable view yields a new
refinement record in which only that one vector entry differs.

## Model

| member | source | states |
|---|---|---|
| Bits.StoreUnsigned | opensubdiv/vtr/refinement.h:196-205 | a value stored into a `w`-bit unsigned field lies below 2^w, is kept unchanged when it already fits, and otherwise differs from the stored integer by a multiple of 2^w |
| Tags.DefaultOptions | opensubdiv/vtr/refinement.h:107-113 | default options ask for uniform refinement (not sparse) with full topology (not face-topology-only) |
| Tags.DefaultSparseTag | opensubdiv/vtr/refinement.h:193-198 | a default sparse tag is unselected and non-transitional, with none of its four per-edge transitional bits set |
| Tags.TransitionalIffSomeEdge | opensubdiv/vtr/refinement.h:183-197 | a component is transitional exactly when one of the four bits of its per-edge mask is set |
| Tags.EncodeKind | opensubdiv/vtr/refinement.h:204 | a parent kind (vertex, edge or face) is coded in two bits and never as the unused fourth code |
| Tags.DecodeKind | opensubdiv/vtr/refinement.h:204 | decoding a two-bit parent type fails exactly on the unused fourth code |
| Tags.DecodeEncodeKind | opensubdiv/vtr/refinement.h:204 | decoding the code of a kind gives that kind back |
| Tags.EncodeDecodeKind | opensubdiv/vtr/refinement.h:204 | encoding a successfully decoded code gives the code back |
| Tags.EncodeKindInjective | opensubdiv/vtr/refinement.h:204 | distinct parent kinds get distinct codes |
| Tags.MakeChildTag | opensubdiv/vtr/refinement.h:200-206 | a child tag holds the incomplete flag and parent kind it was given; its index in the parent is the ordinal modulo 4, and the tag describes the child among any number of siblings (exactly, when there are at most four) |
| Tags.ChildTagOrdinalCollision | opensubdiv/vtr/refinement.h:205 | two ordinals get the same two-bit index in their parent exactly when they differ by a multiple of 4 |
| Tags.RelationsExtensional | opensubdiv/vtr/refinement.h:270-276 | a relation set is determined by its six flags: two sets agree on every flag exactly when they are equal |
| Tags.SetAll | opensubdiv/vtr/refinement.h:278-285 | after `setAll(enable)` every one of the six relations is requested exactly when `enable` is true |
| Tags.SetAllIdempotent | opensubdiv/vtr/refinement.h:278-285 | applying `setAll(enable)` twice gives the same flags as applying it once |
| Tags.SetAllForgetsPrevious | opensubdiv/vtr/refinement.h:278-285 | the result of `setAll` does not depend on the flags set before it |
| IndexArrays.SliceViewMatchesSlice | opensubdiv/vtr/refinement.h:426-438 | the read-only and the mutable view of a counts-and-offsets window show the same entries |
| IndexArrays.WriteThrough | opensubdiv/vtr/refinement.h:433-438 | writing entry `k` through a window's mutable view makes that window read back with entry `k` replaced, and changes no other position of the shared vector |
| IndexArrays.PackedOffsetIsPrefixCount | opensubdiv/vtr/refinement.h:355-364 | in a packed counts-and-offsets table, each component's offset is the sum of the counts of the components before it |
| IndexArrays.PackedWindowsOrdered | opensubdiv/vtr/refinement.h:355-364 | in a packed table, the window of a component ends at or before the start of every later component's window |
| IndexArrays.PackedSlicesDefined | opensubdiv/vtr/refinement.h:355-364 | every window of a packed table lies inside the index vector exactly when the vector is at least as long as the sum of the counts |
| IndexArrays.PackedWindowsDisjoint | opensubdiv/vtr/refinement.h:355-364 | windows of distinct components of a packed table share no position |
| IndexArrays.WriteThroughFrame | opensubdiv/vtr/refinement.h:433-438 | in a packed table, writing through one component's view leaves every other component's window unchanged |
| Refinements.NumChildFacesFromFaces | opensubdiv/vtr/refinement.h:128 | the child-face count from faces; plain field read. `OrderedLayout` fixes the first child face at 0, since all child faces originate from faces (refinement.h:340) |
| Refinements.FirstChildFaceFromFaces | opensubdiv/vtr/refinement.h:135 | the first child face from faces; plain field read. `OrderedLayout` fixes it at 0, since all child faces originate from faces (refinement.h:340) |
| Refinements.NumChildEdgesFrom | opensubdiv/vtr/refinement.h:129-130 | the child-edge count from faces or from edges; plain field read. Its promise is stated by `Mapping.ChildEdgeRangesPartition` |
| Refinements.FirstChildEdgeFrom | opensubdiv/vtr/refinement.h:136-137 | the first child edge from faces or from edges; plain field read. Its promise is stated by `Mapping.ChildEdgeRangesPartition` |
| Refinements.NumChildVerticesFrom | opensubdiv/vtr/refinement.h:131-133 | the child-vertex count from faces, edges or vertices; plain field read. Its promise is stated by `Mapping.ChildVertexOrigin` |
| Refinements.FirstChildVertexFrom | opensubdiv/vtr/refinement.h:138-140 | the first child vertex from faces, edges or vertices; plain field read. Its promise is stated by `Mapping.ChildVertexOrigin` |
| Refinements.FaceChildVertex | opensubdiv/vtr/refinement.h:142 | the child vertex of a face; plain vector read. `Mapping.ChildVertexParentRoundTrip` restates the `VertexMappingConsistent` hypothesis for it; the derived facts are `Mapping.ChildVertexHasOneParentOfKind` and `Mapping.ChildVertexKindsDisjoint` |
| Refinements.EdgeChildVertex | opensubdiv/vtr/refinement.h:143 | the child vertex of an edge; plain vector read. `Mapping.ChildVertexParentRoundTrip` restates the `VertexMappingConsistent` hypothesis for it; the derived facts are `Mapping.ChildVertexHasOneParentOfKind` and `Mapping.ChildVertexKindsDisjoint` |
| Refinements.VertexChildVertex | opensubdiv/vtr/refinement.h:144 | the child vertex of a vertex; plain vector read. `Mapping.ChildVertexParentRoundTrip` restates the `VertexMappingConsistent` hypothesis for it; the derived facts are `Mapping.ChildVertexHasOneParentOfKind` and `Mapping.ChildVertexKindsDisjoint` |
| Refinements.ChildFaceParentFace | opensubdiv/vtr/refinement.h:152 | the parent face of a child face; plain vector read. `Mapping.ChildFaceParentIndexRoundTrip` restates the `FaceIndicesConsistent` hypothesis for it; the derived facts are `Mapping.ChildFaceHasOneParent` and `Mapping.ChildFaceListedOnceInSmallFace` |
| Refinements.ChildEdgeParentIndex | opensubdiv/vtr/refinement.h:155 | the parent index of a child edge; plain vector read. `Mapping.ChildEdgeOfEdgeIndexRoundTrip` and `Mapping.ChildEdgeOfFaceRoundTrip` restate the edge mapping hypotheses for it; the derived fact is `Mapping.EdgeChildEdgesDistinct` |
| Refinements.ChildVertexParentIndex | opensubdiv/vtr/refinement.h:157 | the parent index of a child vertex; plain vector read. `Mapping.ChildVertexParentRoundTrip` restates the `VertexMappingConsistent` hypothesis for it; the derived fact is `Mapping.ChildVertexHasOneParentOfKind` |
| Refinements.FaceChildFaces | opensubdiv/vtr/refinement.h:426-431 | the child faces of face `f` are exactly `count` entries of the child-face index vector, where `count` is entry `2f` of its table, and entry `k` is the vector entry at offset + `k`, with the offset at entry `2f+1` |
| Refinements.FaceChildFacesView | opensubdiv/vtr/refinement.h:433-438 | the mutable child-face view of `f` is backed by the shared child-face vector, starts at `f`'s offset and shows the same entries as the read-only accessor |
| Refinements.SetFaceChildFace | opensubdiv/vtr/refinement.h:433-438 | writing through the child-face view of `f` replaces entry `k` of that view, changes one position of the shared vector and nothing else in the refinement |
| Refinements.FaceChildEdges | opensubdiv/vtr/refinement.h:440-444 | the child edges of face `f` follow the same count-at-`2f`, offset-at-`2f+1` layout, over the child-edge table and index vector |
| Refinements.FaceChildEdgesView | opensubdiv/vtr/refinement.h:446-451 | the mutable child-edge view of `f` is backed by the shared child-edge vector and shows the same entries as the read-only accessor |
| Refinements.SetFaceChildEdge | opensubdiv/vtr/refinement.h:446-451 | writing through the child-edge view of `f` replaces entry `k` of that view, changes one position of the shared vector and nothing else in the refinement |
| Refinements.EdgeChildEdges | opensubdiv/vtr/refinement.h:453-457 | the child edges of edge `e` are always two: the entries at `2e` and `2e+1` |
| Refinements.EdgeChildEdgesView | opensubdiv/vtr/refinement.h:459-463 | the mutable view of the child edges of `e` starts at `2e` of the shared vector and shows the same pair as the read-only accessor |
| Refinements.SetEdgeChildEdge | opensubdiv/vtr/refinement.h:459-463 | writing one child edge of `e` replaces that entry of `e`'s pair, keeps the length of the shared vector, changes no position other than `2e+k`, leaves the pair of every other edge unchanged, and changes nothing else in the refinement |
| Refinements.ChildFaceInParentFace | opensubdiv/vtr/refinement.h:153 | the index of a child face within its parent lies in 0-3 |
| Refinements.SetFaceChildFaceFrame | opensubdiv/vtr/refinement.h:433-438 | with a packed child-face table, writing through one face's view leaves the child faces of every other face unchanged |
| Refinements.SetFaceChildEdgeFrame | opensubdiv/vtr/refinement.h:446-451 | with a packed child-edge table, writing through one face's view leaves the child edges of every other face unchanged |
| Refinements.FaceChildTablesIndependent | opensubdiv/vtr/refinement.h:360-364 | writing child faces never changes any face's child edges, and writing child edges never changes any face's child faces |
| Mapping.ChildFaceParentIndexRoundTrip | opensubdiv/vtr/refinement.h:152-153 | when parent indices and ordinals agree for faces (`FaceIndicesConsistent`), whatever parent type the tags record: for a child face listed under face `f` at slot `k`, `getChildFaceParentFace` returns `f`, and when `f` has at most four children `getChildFaceInParentFace` returns `k` |
| Mapping.ChildFaceParentRoundTrip | opensubdiv/vtr/refinement.h:152-153 | when the face mapping agrees in indices and in the recorded parent kind (`FaceMappingConsistent`): for a child face listed under face `f` at slot `k`, `getChildFaceParentFace` returns `f`, the tag names a face as parent, and when `f` has at most four children `getChildFaceInParentFace` returns `k` |
| Mapping.ChildFaceHasOneParent | opensubdiv/vtr/refinement.h:375-379 | when parent indices and ordinals agree for faces (`FaceIndicesConsistent`), whatever parent type the tags record: a child face listed under two parent slots is listed under one parent face |
| Mapping.ChildFaceListedOnceInSmallFace | opensubdiv/vtr/refinement.h:205 | when parent indices and ordinals agree for faces (`FaceIndicesConsistent`), whatever parent type the tags record: a parent face with at most four children lists each of its child faces once |
| Mapping.LargeFaceOrdinalsAmbiguous | opensubdiv/vtr/refinement.h:205 | a face with five children whose tags all hold index 0, and which lists one child at slots 0 and 4, still agrees with the child-to-parent mapping, so the two-bit index alone does not identify the slot |
| Mapping.IndexAgreementIgnoresParentType | opensubdiv/vtr/refinement.h:150-151 | a quad whose four child tags hold the right ordinals but leave the parent type at code 0 satisfies `FaceIndicesConsistent` and fails `FaceKindsConsistent`, so the index part of the agreement does not depend on the parent type, which the header leaves undefined |
| Mapping.ChildEdgeOfEdgeIndexRoundTrip | opensubdiv/vtr/refinement.h:155 | when parent indices and ordinals agree for edges (`EdgeIndicesConsistent`), whatever parent type the tags record: a child edge listed under edge `e` at slot `k` has parent index `e` and index `k` in its parent |
| Mapping.ChildEdgeOfEdgeRoundTrip | opensubdiv/vtr/refinement.h:155 | when the edge mapping agrees in indices and in the recorded parent kind (`EdgeMappingConsistent`): a child edge listed under edge `e` at slot `k` has parent index `e`, parent type edge and index `k` in its parent |
| Mapping.ChildEdgeOfFaceRoundTrip | opensubdiv/vtr/refinement.h:155 | when the edge mapping agrees in indices and in the recorded parent kind (`EdgeMappingConsistent`): a child edge listed under face `f` has parent index `f` and parent type face |
| Mapping.ChildEdgeOriginsDisjoint | opensubdiv/vtr/refinement.h:360-380 | when every listed child edge's tag names the kind of parent it was listed under (`EdgeKindsConsistent`): no child edge is listed both under a parent face and under a parent edge |
| Mapping.EdgeChildEdgesDistinct | opensubdiv/vtr/refinement.h:367 | when parent indices and ordinals agree for edges (`EdgeIndicesConsistent`), whatever parent type the tags record: the two child edges of a refined edge are distinct |
| Mapping.ChildVertexParentRoundTrip | opensubdiv/vtr/refinement.h:142-157 | when the vertex mapping agrees in indices and in the recorded parent kind (`VertexMappingConsistent`): the child vertex of a parent face, edge or vertex has that parent's index and the parent's kind |
| Mapping.ChildVertexHasOneParentOfKind | opensubdiv/vtr/refinement.h:365-377 | when every parent's child vertex records that parent's index (`VertexIndicesConsistent`), whatever parent type the tags record: two parent components of one kind never share a child vertex |
| Mapping.ChildVertexKindsDisjoint | opensubdiv/vtr/refinement.h:204 | when every parent's child vertex has a tag naming that parent's kind (`VertexKindsConsistent`): parent components of different kinds never share a child vertex |
| Mapping.ChildVertexHasOneParent | opensubdiv/vtr/refinement.h:365-381 | when the vertex mapping agrees in indices and in the recorded parent kind (`VertexMappingConsistent`): two parent components, of the same kind or different kinds, never share a child vertex |
| Mapping.ChildVertexOrigin | opensubdiv/vtr/refinement.h:128-140 | under the ordered layout, a child vertex index belongs to exactly one origin range (face, edge or vertex), and to none exactly when it lies outside 0 .. total-1 |
| Mapping.ChildEdgeRangesPartition | opensubdiv/vtr/refinement.h:128-140 | under the ordered layout, child edges from faces and from edges form two disjoint ranges that together cover 0 .. total-1 |
| Mapping.FaceChildFacesAsWritten | opensubdiv/vtr/refinement.h:426-431 | the accessor as written reads the same window, but only when the offset indexes an existing entry of the vector |
| Mapping.AsWrittenRejectsEmptyTrailingWindow | opensubdiv/vtr/refinement.h:429 | a packed table exists in which a face with no child faces has a well-defined window that the accessor as written cannot form |
| Mapping.PackedFaceChildFacesDefined | opensubdiv/vtr/refinement.h:426-431 | with the window formed from the offset alone, every face of a packed table whose counts fit the vector has its child faces |

## Left out

- `refine`, and every pipeline stage declared in the header: `populate*`, `markSparse*`,
  `initialize*`, `propagateComponentTags`, `subdivide*` and `reclassifySemisharpVertices`. Their
  bodies are in source files that are not part of this model. The mapping tables are therefore
  inputs, and what their producer guarantees is stated as predicates: `Packed`, the index parts
  `FaceIndicesConsistent`, `EdgeIndicesConsistent` and `VertexIndicesConsistent`, the kind parts
  `FaceKindsConsistent`, `EdgeKindsConsistent` and `VertexKindsConsistent`, and `OrderedLayout`.
- `OrderedLayout` assumes that the child index space holds face-born, then edge-born, then
  vertex-born children. refinement.h:330-345 declares only the counts and first offsets, and the
  code that assigns them is not part of this model.
- The pure virtual scheme hooks `allocateParentChildIndices`, `markSparseFaceChildren` and the six
  `populate*Relation` methods. Their implementations are in subclasses that are not part of this model.
- Sharpness subdivision and the mask-weight extension. They are floating-point numerics, and the
  mask-weight code is compiled out.
- `printParentToChildMapping`, which is debug output.
- Face-varying channels (`FVarRefinement`), and the `Level` container: its storage, and the unchecked
  aliasing of raw addresses between its vectors and the refinement's `Array` members.
- The `ChildTag` and `Relations` default constructors leave their fields uninitialised, so the model
  gives them no default value.
- `INDEX_INVALID`: `vtr/types.h` is not part of this model. The sentinel is taken as -1, and the
  lemmas only use the fact that it is not a valid child index.
- Index arithmetic is on unbounded integers. The model does not represent overflow of `2*parentFace+1`
  in a 32-bit `int`.
- Mapping.ChildFaceParentRoundTrip: for a parent with more than four children the model does not
  promise which 0-3 value the child's `indexInParent` holds. refinement.h:205 calls that field
  "iterative" there, and the code that assigns it is not part of this model.
- Mapping.ChildFaceHasOneParent: for the same reason it does not promise that a child face listed
  twice under one large parent sits at slots equal modulo 4.
- Mapping.FaceIndicesConsistent: requires the tag's index to equal the slot only when the parent has
  at most four children, and says nothing about it otherwise.
- Tags.EncodeKind: the codes vertex 0, edge 1, face 2 follow only the word order of the comment at
  refinement.h:204. Nothing in refinement.h assigns `_parentType`, and refinement.h:150-151 says the
  type of the parent component is not yet defined. The kind parts of the mapping agreement
  (`FaceKindsConsistent`, `EdgeKindsConsistent`, `VertexKindsConsistent`) assume that every listed
  child's tag records its parent's kind in this code. A refinement that leaves `_parentType` at 0 on
  child faces, on child edges, or on child vertices of faces or edges fails them. Only the lemmas
  that require a kind part then say nothing about it:
  `Mapping.ChildFaceParentRoundTrip`, `Mapping.ChildEdgeOfEdgeRoundTrip`,
  `Mapping.ChildEdgeOfFaceRoundTrip`, `Mapping.ChildEdgeOriginsDisjoint`,
  `Mapping.ChildVertexParentRoundTrip`, `Mapping.ChildVertexKindsDisjoint` and
  `Mapping.ChildVertexHasOneParent`. The uniqueness lemmas within one kind require only the index
  parts.
- Refinements.FaceChildFaces: requires the window to lie inside the vector, where the C++ code
  checks nothing and an out-of-range index is undefined behaviour.
- Refinements.FaceChildEdges: the same bounds requirement as `FaceChildFaces`. Its C++ accessor
  indexes the vector at the offset in the same way, as noted under Findings.
- Refinements.EdgeChildEdges: `EdgeChildEdgesDefined` requires both entries `2e` and `2e+1` to lie
  inside the vector, where the C++ accessor checks nothing and an out-of-range index is undefined
  behaviour. `EdgeChildEdgesView` and `SetEdgeChildEdge` carry the same requirement.

## Findings

| source | as written | input that shows it | evidently intended | confidence | as-written member | corrected member |
|---|---|---|---|---|---|---|
| opensubdiv/vtr/refinement.h:426-431 | the child-face window's start is formed as `&indices[offset]`, which indexes the vector at the offset even when the window is empty (the child-edge accessors form theirs the same way, but only the child-face form is modelled) | the packed table `[4, 0, 0, 4]` over a four-entry vector: face 1 has no child faces and offset 4, one past the end, so `operator[]` is undefined behaviour there | an empty window at the end of the vector is a valid view, formed from the vector's base address plus the offset | low, not executed; only a face with no children whose offset equals the vector length (or an empty vector) reaches it | Mapping.AsWrittenRejectsEmptyTrailingWindow | Mapping.PackedFaceChildFacesDefined |

=== FILE: bits.dfy ===
/**
  Unsigned C++ bitfields.  A field declared `unsigned ... f : w` holds a value
  in 0 .. 2^w - 1, and storing an integer into it keeps that integer modulo 2^w.
 */
module Bits {

  function Pow2(n: nat): (r: nat)
    ensures r >= 1
  {
    if n == 0 then 1 else 2 * Pow2(n - 1)
  }

  /** A one-bit field. */
  type Bit = b: nat | b < 2

  /** A two-bit field. */
  type Crumb = c: nat | c < 4

  /** A four-bit field. */
  type Nibble = n: nat | n < 16

  /** The value an unsigned bitfield of `width` bits holds after `v` is stored into it. */
  function StoreUnsigned(v: int, width: nat): (r: nat)
    ensures r < Pow2(width)
    ensures 0 <= v < Pow2(width) ==> r == v
    ensures exists q :: v == q * Pow2(width) + r
  {
    var m := Pow2(width);
    ModFacts(v, m);
    v % m
  }

  lemma ModFacts(v: int, m: int)
    requires m > 0
    ensures 0 <= v % m < m
    ensures 0 <= v < m ==> v % m == v
    ensures v == (v / m) * m + v % m
  {
  }

  /** The conversion of a C++ `bool` to a one-bit field: true is 1, false is 0. */
  function FromBool(b: bool): (r: Bit)
    ensures (r == 1) <==> b
  {
    if b then 1 else 0
  }

  function ToBool(b: Bit): bool {
    b != 0
  }
}

=== FILE: index_array.dfy ===
/**
  Index views and counts-and-offsets tables.

  An `IndexArray` is a window of `size` consecutive entries of a shared backing
  vector, starting at `start`.  The read-only view is the sequence of entries in
  that window; the mutable view writes through to the backing vector.

  A counts-and-offsets table describes one window per component `i`: entry
  `2*i` holds the number of entries and entry `2*i+1` the offset at which they
  begin in a separate index vector.
 */
module IndexArrays {

  type Index = int

  /** The sentinel marking a child slot that sparse refinement left empty. */
  const INDEX_INVALID: Index := -1

  datatype IndexArray = IndexArray(backing: seq<Index>, start: nat, size: nat) {

    predicate Valid() {
      start + size <= |backing|
    }

    /** The entries the view shows, in order. */
    function Elements(): (r: seq<Index>)
      requires Valid()
      ensures |r| == size
      ensures forall k :: 0 <= k < size ==> r[k] == backing[start + k]
    {
      backing[start..start + size]
    }

    function Get(k: nat): (r: Index)
      requires Valid() && k < size
      ensures r == Elements()[k]
    {
      backing[start + k]
    }

    /** Writing entry `k` of a mutable view: the view sees the new value and the
        backing vector changes at exactly one position. */
    function Set(k: nat, v: Index): (a: IndexArray)
      requires Valid() && k < size
      ensures a.Valid() && a.start == start && a.size == size
      ensures a.Elements() == Elements()[k := v]
      ensures |a.backing| == |backing| && a.backing[start + k] == v
      ensures forall j :: 0 <= j < |backing| && j != start + k ==> a.backing[j] == backing[j]
    {
      IndexArray(backing[start + k := v], start, size)
    }
  }

  // ----- counts-and-offsets tables -----

  /** The table has an entry pair for component `i`. */
  predicate HasEntry(table: seq<Index>, i: int) {
    0 <= i && 2 * i + 1 < |table|
  }

  function Count(table: seq<Index>, i: int): Index
    requires HasEntry(table, i)
  {
    table[2 * i]
  }

  function Offset(table: seq<Index>, i: int): Index
    requires HasEntry(table, i)
  {
    table[2 * i + 1]
  }

  /** The window of component `i` lies inside `indices`. */
  predicate SliceDefined(table: seq<Index>, indices: seq<Index>, i: int) {
    && HasEntry(table, i)
    && 0 <= Offset(table, i)
    && 0 <= Count(table, i)
    && Offset(table, i) + Count(table, i) <= |indices|
  }

  /** Position `p` of `indices` belongs to the window of component `i`. */
  predicate InSlice(table: seq<Index>, i: int, p: int)
    requires HasEntry(table, i)
  {
    Offset(table, i) <= p < Offset(table, i) + Count(table, i)
  }

  /** The mutable view of component `i`'s window. */
  function SliceView(table: seq<Index>, indices: seq<Index>, i: int): (a: IndexArray)
    requires SliceDefined(table, indices, i)
    ensures a.Valid() && a.backing == indices
    ensures a.size == Count(table, i)
    ensures forall k :: 0 <= k < a.size ==> a.Elements()[k] == indices[Offset(table, i) + k]
  {
    IndexArray(indices, Offset(table, i), Count(table, i))
  }

  /** The read-only view of component `i`'s window. */
  function Slice(table: seq<Index>, indices: seq<Index>, i: int): (r: seq<Index>)
    requires SliceDefined(table, indices, i)
    ensures |r| == Count(table, i)
    ensures forall k :: 0 <= k < |r| ==> r[k] == indices[Offset(table, i) + k]
  {
    indices[Offset(table, i)..Offset(table, i) + Count(table, i)]
  }

  /** The read-only and the mutable view of a window show the same entries. */
  lemma SliceViewMatchesSlice(table: seq<Index>, indices: seq<Index>, i: int)
    requires SliceDefined(table, indices, i)
    ensures SliceView(table, indices, i).Elements() == Slice(table, indices, i)
  {
  }

  /** `indices` after entry `k` of component `i`'s window is written through its mutable view. */
  function WriteThrough(table: seq<Index>, indices: seq<Index>, i: int, k: nat, v: Index): (r: seq<Index>)
    requires SliceDefined(table, indices, i) && k < Count(table, i)
    ensures |r| == |indices|
    ensures SliceDefined(table, r, i)
    ensures Slice(table, r, i) == Slice(table, indices, i)[k := v]
    ensures forall p :: 0 <= p < |indices| && p != Offset(table, i) + k ==> r[p] == indices[p]
  {
    SliceView(table, indices, i).Set(k, v).backing
  }

  // ----- packed tables -----

  /** Sum of the counts of components 0 .. n-1. */
  function PrefixCount(table: seq<Index>, n: nat): int
    requires 2 * n <= |table|
  {
    if n == 0 then 0 else PrefixCount(table, n - 1) + table[2 * (n - 1)]
  }

  /** The layout of a table for `n` components whose windows follow one another
      without gaps, starting at 0: each offset is the previous offset plus the
      previous count, and every count is non-negative. */
  predicate Packed(table: seq<Index>, n: nat) {
    && 2 * n <= |table|
    && (forall i :: 0 <= i < n ==> 0 <= Count(table, i))
    && (n > 0 ==> Offset(table, 0) == 0)
    && (forall i :: 0 < i < n ==> Offset(table, i) == Offset(table, i - 1) + Count(table, i - 1))
  }

  /** In a packed table, each offset is the sum of the counts before it. */
  lemma {:induction false} PackedOffsetIsPrefixCount(table: seq<Index>, n: nat, i: nat)
    requires Packed(table, n) && i < n
    ensures Offset(table, i) == PrefixCount(table, i)
  {
    if i > 0 {
      PackedOffsetIsPrefixCount(table, n, i - 1);
    }
  }

  lemma {:induction false} PrefixCountMonotone(table: seq<Index>, n: nat, i: nat, j: nat)
    requires Packed(table, n) && i <= j <= n
    ensures PrefixCount(table, i) <= PrefixCount(table, j)
  {
    if i < j {
      PrefixCountMonotone(table, n, i, j - 1);
      assert 0 <= Count(table, j - 1);
    }
  }

  /** Windows of a packed table are laid out in component order: the window of
      `i` ends at or before the start of the window of any later `j`. */
  lemma PackedWindowsOrdered(table: seq<Index>, n: nat, i: nat, j: nat)
    requires Packed(table, n) && i < j < n
    ensures Offset(table, i) + Count(table, i) <= Offset(table, j)
  {
    PackedOffsetIsPrefixCount(table, n, i);
    PackedOffsetIsPrefixCount(table, n, j);
    PrefixCountMonotone(table, n, i + 1, j);
  }

  /** Every window of a packed table is defined exactly when the index vector
      is at least as long as the sum of all counts. */
  lemma PackedSlicesDefined(table: seq<Index>, indices: seq<Index>, n: nat)
    requires Packed(table, n)
    ensures PrefixCount(table, n) <= |indices| <==> forall i :: 0 <= i < n ==> SliceDefined(table, indices, i)
  {
    if PrefixCount(table, n) <= |indices| {
      forall i | 0 <= i < n
        ensures SliceDefined(table, indices, i)
      {
        PackedOffsetIsPrefixCount(table, n, i);
        PrefixCountMonotone(table, n, 0, i);
        PrefixCountMonotone(table, n, i + 1, n);
      }
    }
    if n > 0 && forall i :: 0 <= i < n ==> SliceDefined(table, indices, i) {
      assert SliceDefined(table, indices, n - 1);
      PackedOffsetIsPrefixCount(table, n, n - 1);
    }
  }

  /** Windows of distinct components of a packed table share no position. */
  lemma PackedWindowsDisjoint(table: seq<Index>, n: nat, i: nat, j: nat, p: int)
    requires Packed(table, n) && i < n && j < n && i != j
    ensures !(InSlice(table, i, p) && InSlice(table, j, p))
  {
    if i < j {
      PackedWindowsOrdered(table, n, i, j);
    } else {
      PackedWindowsOrdered(table, n, j, i);
    }
  }

  /** Writing through the view of one component leaves the window of every
      other component of a packed table unchanged. */
  lemma WriteThroughFrame(table: seq<Index>, indices: seq<Index>, n: nat, i: nat, j: nat, k: nat, v: Index)
    requires Packed(table, n) && i < n && j < n && i != j
    requires SliceDefined(table, indices, i) && SliceDefined(table, indices, j)
    requires k < Count(table, i)
    ensures SliceDefined(table, WriteThrough(table, indices, i, k, v), j)
    ensures Slice(table, WriteThrough(table, indices, i, k, v), j) == Slice(table, indices, j)
  {
    var r := WriteThrough(table, indices, i, k, v);
    forall m | 0 <= m < Count(table, j)
      ensures Slice(table, r, j)[m] == Slice(table, indices, j)[m]
    {
      PackedWindowsDisjoint(table, n, i, j, Offset(table, j) + m);
    }
  }
}

=== FILE: mapping.dfy ===
/**
  What the two directions of the parent/child mapping promise each other.

  Every slot of a parent's child list is either the invalid sentinel (a child
  sparse refinement did not create) or a child whose child-to-parent entry names
  that parent and whose tag holds the slot's ordinal in its two-bit field when
  the parent has at most four children: the index part of the agreement.
  Separately, the kind part asks the child's tag to name the parent's kind.
  From the index part alone follow the uniqueness facts a user of the
  accessors relies on: looking up the parent of a listed child returns the
  parent it was listed under, and no child is listed twice under parents of
  one kind.  Only telling children of faces from children of edges (or of
  vertices) needs the kind part.  Assuming `OrderedLayout` (face-born, then
  edge-born, then vertex-born children in the child index space), the origin
  ranges the inventory's counts and first offsets describe are disjoint and
  cover 0 .. total-1.
 */
module Mapping {
  import opened Wrappers
  import opened IndexArrays
  import opened Tags
  import opened Refinements

  // ----- child faces of faces -----

  /** Child face `c` records parent face `f`, and its tag's index fits child
      `k` of a face with `siblings` children. */
  predicate RecordsFaceParent(s: Refinement, c: Index, f: Index, k: nat, siblings: nat) {
    && 0 <= c < |s.childFaceParentIndex|
    && c < |s.childFaceTag|
    && s.childFaceParentIndex[c] == f
    && OrdinalMatches(s.childFaceTag[c], k, siblings)
  }

  /** Child face `c` has a tag that names a face as its parent's kind. */
  predicate RecordsFaceKind(s: Refinement, c: Index) {
    0 <= c < |s.childFaceTag| && NamesParent(s.childFaceTag[c], Face)
  }

  predicate FaceChildFaceSlotIndexed(s: Refinement, f: Index, k: int) {
    FaceChildFacesDefined(s, f) && 0 <= k < FaceChildFaceCount(s, f) ==>
      || FaceChildFaces(s, f)[k] == INDEX_INVALID
      || RecordsFaceParent(s, FaceChildFaces(s, f)[k], f, k, FaceChildFaceCount(s, f))
  }

  predicate FaceChildFaceSlotKinded(s: Refinement, f: Index, k: int) {
    FaceChildFacesDefined(s, f) && 0 <= k < FaceChildFaceCount(s, f) ==>
      FaceChildFaces(s, f)[k] == INDEX_INVALID || RecordsFaceKind(s, FaceChildFaces(s, f)[k])
  }

  /** The parent-to-child and child-to-parent indices of faces agree. */
  ghost predicate FaceIndicesConsistent(s: Refinement) {
    forall f, k :: FaceChildFaceSlotIndexed(s, f, k)
  }

  /** Every listed child face's tag names a face as its parent's kind. */
  ghost predicate FaceKindsConsistent(s: Refinement) {
    forall f, k :: FaceChildFaceSlotKinded(s, f, k)
  }

  ghost predicate FaceMappingConsistent(s: Refinement) {
    FaceIndicesConsistent(s) && FaceKindsConsistent(s)
  }

  /** Looking up the parent of a child face listed under face `f` at slot `k`
      returns `f`, and when `f` has at most four children the child's index in
      its parent is `k`.  The parent's kind is not needed for this. */
  lemma ChildFaceParentIndexRoundTrip(s: Refinement, f: Index, k: nat)
    requires FaceIndicesConsistent(s)
    requires FaceChildFacesDefined(s, f) && k < FaceChildFaceCount(s, f)
    requires FaceChildFaces(s, f)[k] != INDEX_INVALID
    ensures 0 <= FaceChildFaces(s, f)[k] < |s.childFaceParentIndex| && FaceChildFaces(s, f)[k] < |s.childFaceTag|
    ensures ChildFaceParentFace(s, FaceChildFaces(s, f)[k]) == f
    ensures FaceChildFaceCount(s, f) <= 4 ==> ChildFaceInParentFace(s, FaceChildFaces(s, f)[k]) == k
  {
    assert FaceChildFaceSlotIndexed(s, f, k);
  }

  /** The same round trip, together with the parent kind the tag names. */
  lemma ChildFaceParentRoundTrip(s: Refinement, f: Index, k: nat)
    requires FaceMappingConsistent(s)
    requires FaceChildFacesDefined(s, f) && k < FaceChildFaceCount(s, f)
    requires FaceChildFaces(s, f)[k] != INDEX_INVALID
    ensures 0 <= FaceChildFaces(s, f)[k] < |s.childFaceParentIndex| && FaceChildFaces(s, f)[k] < |s.childFaceTag|
    ensures ChildFaceParentFace(s, FaceChildFaces(s, f)[k]) == f
    ensures DecodeKind(s.childFaceTag[FaceChildFaces(s, f)[k]].parentType) == Some(Face)
    ensures FaceChildFaceCount(s, f) <= 4 ==> ChildFaceInParentFace(s, FaceChildFaces(s, f)[k]) == k
  {
    ChildFaceParentIndexRoundTrip(s, f, k);
    assert FaceChildFaceSlotKinded(s, f, k);
  }

  /** A child face is listed under at most one parent face. */
  lemma ChildFaceHasOneParent(s: Refinement, f1: Index, k1: nat, f2: Index, k2: nat)
    requires FaceIndicesConsistent(s)
    requires FaceChildFacesDefined(s, f1) && k1 < FaceChildFaceCount(s, f1)
    requires FaceChildFacesDefined(s, f2) && k2 < FaceChildFaceCount(s, f2)
    requires FaceChildFaces(s, f1)[k1] == FaceChildFaces(s, f2)[k2] != INDEX_INVALID
    ensures f1 == f2
  {
    ChildFaceParentIndexRoundTrip(s, f1, k1);
    ChildFaceParentIndexRoundTrip(s, f2, k2);
  }

  /** For a parent with at most four child faces (a quad or a triangle under
      either split), the two-bit index identifies the slot, so each child face
      is listed exactly once. */
  lemma ChildFaceListedOnceInSmallFace(s: Refinement, f: Index, k1: nat, k2: nat)
    requires FaceIndicesConsistent(s)
    requires FaceChildFacesDefined(s, f) && FaceChildFaceCount(s, f) <= 4
    requires k1 < FaceChildFaceCount(s, f) && k2 < FaceChildFaceCount(s, f)
    requires FaceChildFaces(s, f)[k1] == FaceChildFaces(s, f)[k2] != INDEX_INVALID
    ensures k1 == k2
  {
    ChildFaceParentIndexRoundTrip(s, f, k1);
    ChildFaceParentIndexRoundTrip(s, f, k2);
  }

  /** A refinement whose only parent face has five child slots, the last
      repeating the first child, and whose child tags all hold index 0. */
  function FiveSlotFace(): Refinement {
    Refinement(
      true, Inventory(0, 0, 0, 0, 0, 0, 0, 0, 0, 0, 0, 0),
      [5, 0], [], [0, 1, 2, 3, 0], [], [], [], [], [],
      [0, 0, 0, 0], [], [],
      [ChildTag(0, 2, 0), ChildTag(0, 2, 0), ChildTag(0, 2, 0), ChildTag(0, 2, 0)], [], [],
      [], [], [])
  }

  lemma FiveSlotFaceSlotConsistent(f: Index, k: int)
    ensures FaceChildFaceSlotIndexed(FiveSlotFace(), f, k)
    ensures FaceChildFaceSlotKinded(FiveSlotFace(), f, k)
  {
  }

  /** For a face with more than four children the tags need not identify the
      slot: a five-child face whose children all hold index 0, and which lists
      child 0 twice, still agrees with the child-to-parent mapping. */
  lemma LargeFaceOrdinalsAmbiguous()
    ensures exists s: Refinement, f: Index ::
      && FaceMappingConsistent(s)
      && FaceChildFacesDefined(s, f) && FaceChildFaceCount(s, f) == 5
      && FaceChildFaces(s, f)[0] == FaceChildFaces(s, f)[4] == 0
      && (forall c :: 0 <= c < |s.childFaceTag| ==> ChildFaceInParentFace(s, c) == 0)
  {
    var s := FiveSlotFace();
    forall f, k ensures FaceChildFaceSlotIndexed(s, f, k) && FaceChildFaceSlotKinded(s, f, k) {
      FiveSlotFaceSlotConsistent(f, k);
    }
    assert FaceChildFacesDefined(s, 0);
    assert FaceChildFaces(s, 0)[0] == FaceChildFaces(s, 0)[4] == 0;
  }

  /** One quad split into four child faces whose tags hold the right ordinals
      but leave the parent type at its zero code. */
  function UntypedQuad(): Refinement {
    Refinement(
      true, Inventory(0, 0, 0, 0, 0, 0, 0, 0, 0, 0, 0, 0),
      [4, 0], [], [0, 1, 2, 3], [], [], [], [], [],
      [0, 0, 0, 0], [], [],
      [ChildTag(0, 0, 0), ChildTag(0, 0, 1), ChildTag(0, 0, 2), ChildTag(0, 0, 3)], [], [],
      [], [], [])
  }

  lemma UntypedQuadSlotIndexed(f: Index, k: int)
    ensures FaceChildFaceSlotIndexed(UntypedQuad(), f, k)
  {
  }

  /** The parent and ordinal agreement does not depend on the parent type the
      tags record: a quad whose child tags leave it unset satisfies the index
      part of the face mapping but not the kind part. */
  lemma IndexAgreementIgnoresParentType()
    ensures exists s: Refinement :: FaceIndicesConsistent(s) && !FaceKindsConsistent(s)
  {
    var s := UntypedQuad();
    forall f, k ensures FaceChildFaceSlotIndexed(s, f, k) {
      UntypedQuadSlotIndexed(f, k);
    }
    assert FaceChildFacesDefined(s, 0) && FaceChildFaces(s, 0)[0] == 0;
    assert !FaceChildFaceSlotKinded(s, 0, 0);
    assert FaceIndicesConsistent(s) && !FaceKindsConsistent(s);
  }

  // ----- child edges of faces and of edges -----

  /** Child edge `c` records parent `p`, and its tag's index fits child `k` of
      a parent with `siblings` children. */
  predicate RecordsEdgeParent(s: Refinement, c: Index, p: Index, k: nat, siblings: nat) {
    && 0 <= c < |s.childEdgeParentIndex|
    && c < |s.childEdgeTag|
    && s.childEdgeParentIndex[c] == p
    && OrdinalMatches(s.childEdgeTag[c], k, siblings)
  }

  /** Child edge `c` has a tag that names `kind` as its parent's kind. */
  predicate RecordsEdgeKind(s: Refinement, c: Index, kind: ComponentKind) {
    0 <= c < |s.childEdgeTag| && NamesParent(s.childEdgeTag[c], kind)
  }

  predicate FaceChildEdgeSlotIndexed(s: Refinement, f: Index, k: int) {
    FaceChildEdgesDefined(s, f) && 0 <= k < FaceChildEdgeCount(s, f) ==>
      || FaceChildEdges(s, f)[k] == INDEX_INVALID
      || RecordsEdgeParent(s, FaceChildEdges(s, f)[k], f, k, FaceChildEdgeCount(s, f))
  }

  /** An edge always has two child-edge slots. */
  predicate EdgeChildEdgeSlotIndexed(s: Refinement, e: Index, k: int) {
    EdgeChildEdgesDefined(s, e) && 0 <= k < 2 ==>
      EdgeChildEdges(s, e)[k] == INDEX_INVALID || RecordsEdgeParent(s, EdgeChildEdges(s, e)[k], e, k, 2)
  }

  predicate FaceChildEdgeSlotKinded(s: Refinement, f: Index, k: int) {
    FaceChildEdgesDefined(s, f) && 0 <= k < FaceChildEdgeCount(s, f) ==>
      FaceChildEdges(s, f)[k] == INDEX_INVALID || RecordsEdgeKind(s, FaceChildEdges(s, f)[k], Face)
  }

  predicate EdgeChildEdgeSlotKinded(s: Refinement, e: Index, k: int) {
    EdgeChildEdgesDefined(s, e) && 0 <= k < 2 ==>
      EdgeChildEdges(s, e)[k] == INDEX_INVALID || RecordsEdgeKind(s, EdgeChildEdges(s, e)[k], Edge)
  }

  /** The parent-to-child and child-to-parent indices of edges agree. */
  ghost predicate EdgeIndicesConsistent(s: Refinement) {
    && (forall f, k :: FaceChildEdgeSlotIndexed(s, f, k))
    && (forall e, k :: EdgeChildEdgeSlotIndexed(s, e, k))
  }

  /** Every listed child edge's tag names the kind it was listed under. */
  ghost predicate EdgeKindsConsistent(s: Refinement) {
    && (forall f, k :: FaceChildEdgeSlotKinded(s, f, k))
    && (forall e, k :: EdgeChildEdgeSlotKinded(s, e, k))
  }

  ghost predicate EdgeMappingConsistent(s: Refinement) {
    EdgeIndicesConsistent(s) && EdgeKindsConsistent(s)
  }

  /** Looking up the parent of a child edge listed under edge `e` returns `e`,
      and the child's index in its parent is its slot, 0 or 1. */
  lemma ChildEdgeOfEdgeIndexRoundTrip(s: Refinement, e: Index, k: nat)
    requires EdgeIndicesConsistent(s)
    requires EdgeChildEdgesDefined(s, e) && k < 2
    requires EdgeChildEdges(s, e)[k] != INDEX_INVALID
    ensures 0 <= EdgeChildEdges(s, e)[k] < |s.childEdgeParentIndex| && EdgeChildEdges(s, e)[k] < |s.childEdgeTag|
    ensures ChildEdgeParentIndex(s, EdgeChildEdges(s, e)[k]) == e
    ensures s.childEdgeTag[EdgeChildEdges(s, e)[k]].indexInParent == k
  {
    assert EdgeChildEdgeSlotIndexed(s, e, k);
  }

  /** The same round trip, together with the parent kind the tag names. */
  lemma ChildEdgeOfEdgeRoundTrip(s: Refinement, e: Index, k: nat)
    requires EdgeMappingConsistent(s)
    requires EdgeChildEdgesDefined(s, e) && k < 2
    requires EdgeChildEdges(s, e)[k] != INDEX_INVALID
    ensures 0 <= EdgeChildEdges(s, e)[k] < |s.childEdgeParentIndex| && EdgeChildEdges(s, e)[k] < |s.childEdgeTag|
    ensures ChildEdgeParentIndex(s, EdgeChildEdges(s, e)[k]) == e
    ensures DecodeKind(s.childEdgeTag[EdgeChildEdges(s, e)[k]].parentType) == Some(Edge)
    ensures s.childEdgeTag[EdgeChildEdges(s, e)[k]].indexInParent == k
  {
    ChildEdgeOfEdgeIndexRoundTrip(s, e, k);
    assert EdgeChildEdgeSlotKinded(s, e, k);
  }

  /** Looking up the parent of a child edge listed under face `f` returns `f`,
      and its tag names a face as the parent's kind. */
  lemma ChildEdgeOfFaceRoundTrip(s: Refinement, f: Index, k: nat)
    requires EdgeMappingConsistent(s)
    requires FaceChildEdgesDefined(s, f) && k < FaceChildEdgeCount(s, f)
    requires FaceChildEdges(s, f)[k] != INDEX_INVALID
    ensures 0 <= FaceChildEdges(s, f)[k] < |s.childEdgeParentIndex| && FaceChildEdges(s, f)[k] < |s.childEdgeTag|
    ensures ChildEdgeParentIndex(s, FaceChildEdges(s, f)[k]) == f
    ensures DecodeKind(s.childEdgeTag[FaceChildEdges(s, f)[k]].parentType) == Some(Face)
  {
    assert FaceChildEdgeSlotIndexed(s, f, k);
    assert FaceChildEdgeSlotKinded(s, f, k);
  }

  /** No child edge is listed both under a parent face and under a parent
      edge.  Only the parent kinds the tags record keep the two apart: parent
      indices of faces and of edges may coincide. */
  lemma ChildEdgeOriginsDisjoint(s: Refinement, f: Index, kf: nat, e: Index, ke: nat)
    requires EdgeKindsConsistent(s)
    requires FaceChildEdgesDefined(s, f) && kf < FaceChildEdgeCount(s, f)
    requires EdgeChildEdgesDefined(s, e) && ke < 2
    requires FaceChildEdges(s, f)[kf] != INDEX_INVALID
    ensures FaceChildEdges(s, f)[kf] != EdgeChildEdges(s, e)[ke]
  {
    assert FaceChildEdgeSlotKinded(s, f, kf);
    assert EdgeChildEdgeSlotKinded(s, e, ke);
  }

  /** The two child edges of a parent edge are distinct unless unrefined. */
  lemma EdgeChildEdgesDistinct(s: Refinement, e: Index)
    requires EdgeIndicesConsistent(s)
    requires EdgeChildEdgesDefined(s, e)
    requires EdgeChildEdges(s, e)[0] != INDEX_INVALID
    ensures EdgeChildEdges(s, e)[0] != EdgeChildEdges(s, e)[1]
  {
    assert EdgeChildEdgeSlotIndexed(s, e, 0);
    assert EdgeChildEdgeSlotIndexed(s, e, 1);
  }

  // ----- child vertices -----

  /** Child vertex `c` records parent `p`. */
  predicate RecordsVertexParent(s: Refinement, c: Index, p: Index) {
    0 <= c < |s.childVertexParentIndex| && s.childVertexParentIndex[c] == p
  }

  /** Child vertex `c` has a tag that names `kind` as its parent's kind. */
  predicate RecordsVertexKind(s: Refinement, c: Index, kind: ComponentKind) {
    0 <= c < |s.childVertexTag| && NamesParent(s.childVertexTag[c], kind)
  }

  predicate ChildVertexSlotIndexed(s: Refinement, kind: ComponentKind, p: Index) {
    0 <= p < ChildVertexTableSize(s, kind) ==>
      ChildVertexOf(s, kind, p) == INDEX_INVALID || RecordsVertexParent(s, ChildVertexOf(s, kind, p), p)
  }

  predicate ChildVertexSlotKinded(s: Refinement, kind: ComponentKind, p: Index) {
    0 <= p < ChildVertexTableSize(s, kind) ==>
      ChildVertexOf(s, kind, p) == INDEX_INVALID || RecordsVertexKind(s, ChildVertexOf(s, kind, p), kind)
  }

  /** The child vertex of every parent component records that component's index. */
  ghost predicate VertexIndicesConsistent(s: Refinement) {
    forall kind, p :: ChildVertexSlotIndexed(s, kind, p)
  }

  /** The child vertex of every parent component names that component's kind. */
  ghost predicate VertexKindsConsistent(s: Refinement) {
    forall kind, p :: ChildVertexSlotKinded(s, kind, p)
  }

  ghost predicate VertexMappingConsistent(s: Refinement) {
    VertexIndicesConsistent(s) && VertexKindsConsistent(s)
  }

  /** The child vertex of a parent component points back at that component and its kind. */
  lemma ChildVertexParentRoundTrip(s: Refinement, kind: ComponentKind, p: Index)
    requires VertexMappingConsistent(s)
    requires 0 <= p < ChildVertexTableSize(s, kind)
    requires ChildVertexOf(s, kind, p) != INDEX_INVALID
    ensures 0 <= ChildVertexOf(s, kind, p) < |s.childVertexParentIndex| && ChildVertexOf(s, kind, p) < |s.childVertexTag|
    ensures ChildVertexParentIndex(s, ChildVertexOf(s, kind, p)) == p
    ensures DecodeKind(s.childVertexTag[ChildVertexOf(s, kind, p)].parentType) == Some(kind)
  {
    assert ChildVertexSlotIndexed(s, kind, p);
    assert ChildVertexSlotKinded(s, kind, p);
  }

  /** Distinct parent components of one kind never share a child vertex; the
      parent index alone tells them apart. */
  lemma ChildVertexHasOneParentOfKind(s: Refinement, kind: ComponentKind, p1: Index, p2: Index)
    requires VertexIndicesConsistent(s)
    requires 0 <= p1 < ChildVertexTableSize(s, kind) && 0 <= p2 < ChildVertexTableSize(s, kind)
    requires ChildVertexOf(s, kind, p1) == ChildVertexOf(s, kind, p2) != INDEX_INVALID
    ensures p1 == p2
  {
    assert ChildVertexSlotIndexed(s, kind, p1);
    assert ChildVertexSlotIndexed(s, kind, p2);
  }

  /** Parent components of different kinds never share a child vertex; only
      the parent kinds the tags record tell them apart. */
  lemma ChildVertexKindsDisjoint(s: Refinement, k1: ComponentKind, p1: Index, k2: ComponentKind, p2: Index)
    requires VertexKindsConsistent(s)
    requires 0 <= p1 < ChildVertexTableSize(s, k1) && 0 <= p2 < ChildVertexTableSize(s, k2)
    requires ChildVertexOf(s, k1, p1) == ChildVertexOf(s, k2, p2) != INDEX_INVALID
    ensures k1 == k2
  {
    assert ChildVertexSlotKinded(s, k1, p1);
    assert ChildVertexSlotKinded(s, k2, p2);
  }

  /** Distinct parent components (of the same or of different kinds) never
      share a child vertex. */
  lemma ChildVertexHasOneParent(s: Refinement, k1: ComponentKind, p1: Index, k2: ComponentKind, p2: Index)
    requires VertexMappingConsistent(s)
    requires 0 <= p1 < ChildVertexTableSize(s, k1) && 0 <= p2 < ChildVertexTableSize(s, k2)
    requires ChildVertexOf(s, k1, p1) == ChildVertexOf(s, k2, p2) != INDEX_INVALID
    ensures k1 == k2 && p1 == p2
  {
    ChildVertexKindsDisjoint(s, k1, p1, k2, p2);
    ChildVertexHasOneParentOfKind(s, k1, p1, p2);
  }

  // ----- layout of the child index space by origin -----

  /** Child faces all come from faces and start at 0; child edges from faces
      precede those from edges; child vertices from faces precede those from
      edges, which precede those from vertices.  All counts are non-negative. */
  predicate OrderedLayout(s: Refinement) {
    var inv := s.inventory;
    && inv.childFaceFromFaceCount >= 0
    && inv.childEdgeFromFaceCount >= 0 && inv.childEdgeFromEdgeCount >= 0
    && inv.childVertFromFaceCount >= 0 && inv.childVertFromEdgeCount >= 0 && inv.childVertFromVertCount >= 0
    && inv.firstChildFaceFromFace == 0
    && inv.firstChildEdgeFromFace == 0
    && inv.firstChildEdgeFromEdge == inv.childEdgeFromFaceCount
    && inv.firstChildVertFromFace == 0
    && inv.firstChildVertFromEdge == inv.childVertFromFaceCount
    && inv.firstChildVertFromVert == inv.childVertFromFaceCount + inv.childVertFromEdgeCount
  }

  predicate InChildVertexRange(s: Refinement, from: ComponentKind, v: Index) {
    FirstChildVertexFrom(s, from) <= v < FirstChildVertexFrom(s, from) + NumChildVerticesFrom(s, from)
  }

  function NumChildVertices(s: Refinement): int {
    NumChildVerticesFrom(s, Face) + NumChildVerticesFrom(s, Edge) + NumChildVerticesFrom(s, Vertex)
  }

  /** The kind of parent component a child vertex index was reserved for,
      found from the inventory alone. */
  function ChildVertexOrigin(s: Refinement, v: Index): (r: Option<ComponentKind>)
    requires OrderedLayout(s)
    ensures r.None? <==> !(0 <= v < NumChildVertices(s))
    ensures forall from :: r == Some(from) <==> InChildVertexRange(s, from, v)
  {
    if InChildVertexRange(s, Face, v) then Some(Face)
    else if InChildVertexRange(s, Edge, v) then Some(Edge)
    else if InChildVertexRange(s, Vertex, v) then Some(Vertex)
    else None
  }

  predicate InChildEdgeRange(s: Refinement, from: ComponentKind, e: Index)
    requires from != Vertex
  {
    FirstChildEdgeFrom(s, from) <= e < FirstChildEdgeFrom(s, from) + NumChildEdgesFrom(s, from)
  }

  /** Child edge indices from faces and from edges form two adjacent,
      disjoint ranges that together cover 0 .. total - 1. */
  lemma ChildEdgeRangesPartition(s: Refinement, e: Index)
    requires OrderedLayout(s)
    ensures !(InChildEdgeRange(s, Face, e) && InChildEdgeRange(s, Edge, e))
    ensures InChildEdgeRange(s, Face, e) || InChildEdgeRange(s, Edge, e)
        <==> 0 <= e < NumChildEdgesFrom(s, Face) + NumChildEdgesFrom(s, Edge)
  {
  }

  // ----- the accessors as written, and as intended -----

  /** The C++ accessor forms the address of the window's first entry by
      indexing the shared vector at the offset, which requires the offset to be
      a position of the vector even when the window is empty. */
  predicate FaceChildFacesDefinedAsWritten(s: Refinement, f: Index) {
    && FaceChildFacesDefined(s, f)
    && Offset(s.faceChildFaceCountsAndOffsets, f) < |s.faceChildFaceIndices|
  }

  /** The child-face accessor as written: defined only when the offset indexes the vector. */
  function FaceChildFacesAsWritten(s: Refinement, f: Index): (r: seq<Index>)
    requires FaceChildFacesDefinedAsWritten(s, f)
    ensures r == FaceChildFaces(s, f)
  {
    s.faceChildFaceIndices[s.faceChildFaceCountsAndOffsets[2 * f + 1]..][..s.faceChildFaceCountsAndOffsets[2 * f]]
  }

  /** A packed table whose last face has no child faces: the window is empty
      and starts one past the end of the vector.  The accessor as written is
      not defined there, while the window is. */
  lemma AsWrittenRejectsEmptyTrailingWindow()
    ensures exists s: Refinement, f: Index ::
      && Packed(s.faceChildFaceCountsAndOffsets, 2)
      && PrefixCount(s.faceChildFaceCountsAndOffsets, 2) <= |s.faceChildFaceIndices|
      && FaceChildFacesDefined(s, f)
      && !FaceChildFacesDefinedAsWritten(s, f)
  {
    var inv := Inventory(0, 0, 0, 0, 0, 0, 0, 0, 0, 0, 0, 0);
    var s := Refinement(
      true, inv,
      [4, 0, 0, 4], [], [0, 1, 2, 3], [], [], [], [], [],
      [], [], [], [], [], [], [], [], []);
    assert PrefixCount(s.faceChildFaceCountsAndOffsets, 2) == 4;
    assert FaceChildFacesDefined(s, 1) && !FaceChildFacesDefinedAsWritten(s, 1);
  }

  /** With the window taken from the offset without indexing the vector, every
      face of a packed table whose counts fit the vector has its child faces. */
  lemma PackedFaceChildFacesDefined(s: Refinement, n: nat, f: Index)
    requires Packed(s.faceChildFaceCountsAndOffsets, n)
    requires PrefixCount(s.faceChildFaceCountsAndOffsets, n) <= |s.faceChildFaceIndices|
    requires 0 <= f < n
    ensures FaceChildFacesDefined(s, f)
  {
    PackedSlicesDefined(s.faceChildFaceCountsAndOffsets, s.faceChildFaceIndices, n);
  }
}

=== FILE: refinement.dfy ===
/**
  The state of one refinement between a parent and a child level: the
  inventory of child components by origin, the parent-to-child index tables,
  the child-to-parent index tables with their child tags, and the sparse tags of
  the parent components.  The accessors here are the ones the refinement
  offers to its users; the tables themselves are filled by the refinement
  pipeline, which is not part of this model.
 */
module Refinements {
  import opened IndexArrays
  import opened Tags

  /** How many child components came from each kind of parent component, and
      where each group starts in the child level's index space. */
  datatype Inventory = Inventory(
    childFaceFromFaceCount: int,
    childEdgeFromFaceCount: int,
    childEdgeFromEdgeCount: int,
    childVertFromFaceCount: int,
    childVertFromEdgeCount: int,
    childVertFromVertCount: int,
    firstChildFaceFromFace: int,
    firstChildEdgeFromFace: int,
    firstChildEdgeFromEdge: int,
    firstChildVertFromFace: int,
    firstChildVertFromEdge: int,
    firstChildVertFromVert: int)

  datatype Refinement = Refinement(
    uniform: bool,
    inventory: Inventory,
    // parent-to-child mapping
    faceChildFaceCountsAndOffsets: seq<Index>,
    faceChildEdgeCountsAndOffsets: seq<Index>,
    faceChildFaceIndices: seq<Index>,
    faceChildEdgeIndices: seq<Index>,
    faceChildVertIndex: seq<Index>,
    edgeChildEdgeIndices: seq<Index>,
    edgeChildVertIndex: seq<Index>,
    vertChildVertIndex: seq<Index>,
    // child-to-parent mapping
    childFaceParentIndex: seq<Index>,
    childEdgeParentIndex: seq<Index>,
    childVertexParentIndex: seq<Index>,
    childFaceTag: seq<ChildTag>,
    childEdgeTag: seq<ChildTag>,
    childVertexTag: seq<ChildTag>,
    // sparse selection tags of the parent components
    parentFaceTag: seq<SparseTag>,
    parentEdgeTag: seq<SparseTag>,
    parentVertexTag: seq<SparseTag>)

  // ----- inventory -----

  function NumChildFacesFromFaces(s: Refinement): int {
    s.inventory.childFaceFromFaceCount
  }

  function FirstChildFaceFromFaces(s: Refinement): Index {
    s.inventory.firstChildFaceFromFace
  }

  /** Number of child edges from faces or from edges (child edges never come from vertices). */
  function NumChildEdgesFrom(s: Refinement, from: ComponentKind): int
    requires from != Vertex
  {
    if from == Face then s.inventory.childEdgeFromFaceCount else s.inventory.childEdgeFromEdgeCount
  }

  function FirstChildEdgeFrom(s: Refinement, from: ComponentKind): Index
    requires from != Vertex
  {
    if from == Face then s.inventory.firstChildEdgeFromFace else s.inventory.firstChildEdgeFromEdge
  }

  function NumChildVerticesFrom(s: Refinement, from: ComponentKind): int {
    match from
    case Face => s.inventory.childVertFromFaceCount
    case Edge => s.inventory.childVertFromEdgeCount
    case Vertex => s.inventory.childVertFromVertCount
  }

  function FirstChildVertexFrom(s: Refinement, from: ComponentKind): Index {
    match from
    case Face => s.inventory.firstChildVertFromFace
    case Edge => s.inventory.firstChildVertFromEdge
    case Vertex => s.inventory.firstChildVertFromVert
  }

  // ----- parent-to-child: single child vertices -----

  function FaceChildVertex(s: Refinement, f: Index): Index
    requires 0 <= f < |s.faceChildVertIndex|
  {
    s.faceChildVertIndex[f]
  }

  function EdgeChildVertex(s: Refinement, e: Index): Index
    requires 0 <= e < |s.edgeChildVertIndex|
  {
    s.edgeChildVertIndex[e]
  }

  function VertexChildVertex(s: Refinement, v: Index): Index
    requires 0 <= v < |s.vertChildVertIndex|
  {
    s.vertChildVertIndex[v]
  }

  /** Number of parent components of kind `kind` that have a child-vertex entry. */
  function ChildVertexTableSize(s: Refinement, kind: ComponentKind): nat {
    match kind
    case Face => |s.faceChildVertIndex|
    case Edge => |s.edgeChildVertIndex|
    case Vertex => |s.vertChildVertIndex|
  }

  /** The child vertex of parent component `p` of kind `kind`. */
  function ChildVertexOf(s: Refinement, kind: ComponentKind, p: Index): Index
    requires 0 <= p < ChildVertexTableSize(s, kind)
  {
    match kind
    case Face => FaceChildVertex(s, p)
    case Edge => EdgeChildVertex(s, p)
    case Vertex => VertexChildVertex(s, p)
  }

  // ----- parent-to-child: child faces and edges of a face -----

  predicate FaceChildFacesDefined(s: Refinement, f: Index) {
    SliceDefined(s.faceChildFaceCountsAndOffsets, s.faceChildFaceIndices, f)
  }

  function FaceChildFaceCount(s: Refinement, f: Index): int
    requires FaceChildFacesDefined(s, f)
  {
    Count(s.faceChildFaceCountsAndOffsets, f)
  }

  /** The child faces of parent face `f`: the run of the shared index vector
      whose length and start are the pair of table entries at `2f` and `2f+1`. */
  function FaceChildFaces(s: Refinement, f: Index): (r: seq<Index>)
    requires FaceChildFacesDefined(s, f)
    ensures |r| == s.faceChildFaceCountsAndOffsets[2 * f]
    ensures forall k :: 0 <= k < |r| ==>
      r[k] == s.faceChildFaceIndices[s.faceChildFaceCountsAndOffsets[2 * f + 1] + k]
  {
    Slice(s.faceChildFaceCountsAndOffsets, s.faceChildFaceIndices, f)
  }

  /** The mutable view of the child faces of `f`: it shows the same entries as
      the read-only accessor and is backed by the shared index vector. */
  function FaceChildFacesView(s: Refinement, f: Index): (a: IndexArray)
    requires FaceChildFacesDefined(s, f)
    ensures a.Valid() && a.backing == s.faceChildFaceIndices
    ensures a.start == s.faceChildFaceCountsAndOffsets[2 * f + 1]
    ensures a.Elements() == FaceChildFaces(s, f)
  {
    SliceView(s.faceChildFaceCountsAndOffsets, s.faceChildFaceIndices, f)
  }

  /** Writing entry `k` through the mutable view of the child faces of `f`:
      that view sees the new value, the shared vector changes at exactly one
      position, and no other part of the refinement changes. */
  function SetFaceChildFace(s: Refinement, f: Index, k: nat, v: Index): (t: Refinement)
    requires FaceChildFacesDefined(s, f) && k < FaceChildFaceCount(s, f)
    ensures t == s.(faceChildFaceIndices := t.faceChildFaceIndices)
    ensures FaceChildFacesDefined(t, f)
    ensures FaceChildFaces(t, f) == FaceChildFaces(s, f)[k := v]
    ensures |t.faceChildFaceIndices| == |s.faceChildFaceIndices|
    ensures forall p :: 0 <= p < |s.faceChildFaceIndices| && p != s.faceChildFaceCountsAndOffsets[2 * f + 1] + k ==>
      t.faceChildFaceIndices[p] == s.faceChildFaceIndices[p]
  {
    s.(faceChildFaceIndices := FaceChildFacesView(s, f).Set(k, v).backing)
  }

  predicate FaceChildEdgesDefined(s: Refinement, f: Index) {
    SliceDefined(s.faceChildEdgeCountsAndOffsets, s.faceChildEdgeIndices, f)
  }

  function FaceChildEdgeCount(s: Refinement, f: Index): int
    requires FaceChildEdgesDefined(s, f)
  {
    Count(s.faceChildEdgeCountsAndOffsets, f)
  }

  /** The child edges of parent face `f`, laid out like the child faces but
      over a table and index vector of their own. */
  function FaceChildEdges(s: Refinement, f: Index): (r: seq<Index>)
    requires FaceChildEdgesDefined(s, f)
    ensures |r| == s.faceChildEdgeCountsAndOffsets[2 * f]
    ensures forall k :: 0 <= k < |r| ==>
      r[k] == s.faceChildEdgeIndices[s.faceChildEdgeCountsAndOffsets[2 * f + 1] + k]
  {
    Slice(s.faceChildEdgeCountsAndOffsets, s.faceChildEdgeIndices, f)
  }

  function FaceChildEdgesView(s: Refinement, f: Index): (a: IndexArray)
    requires FaceChildEdgesDefined(s, f)
    ensures a.Valid() && a.backing == s.faceChildEdgeIndices
    ensures a.start == s.faceChildEdgeCountsAndOffsets[2 * f + 1]
    ensures a.Elements() == FaceChildEdges(s, f)
  {
    SliceView(s.faceChildEdgeCountsAndOffsets, s.faceChildEdgeIndices, f)
  }

  function SetFaceChildEdge(s: Refinement, f: Index, k: nat, v: Index): (t: Refinement)
    requires FaceChildEdgesDefined(s, f) && k < FaceChildEdgeCount(s, f)
    ensures t == s.(faceChildEdgeIndices := t.faceChildEdgeIndices)
    ensures FaceChildEdgesDefined(t, f)
    ensures FaceChildEdges(t, f) == FaceChildEdges(s, f)[k := v]
    ensures |t.faceChildEdgeIndices| == |s.faceChildEdgeIndices|
    ensures forall p :: 0 <= p < |s.faceChildEdgeIndices| && p != s.faceChildEdgeCountsAndOffsets[2 * f + 1] + k ==>
      t.faceChildEdgeIndices[p] == s.faceChildEdgeIndices[p]
  {
    s.(faceChildEdgeIndices := FaceChildEdgesView(s, f).Set(k, v).backing)
  }

  // ----- parent-to-child: the two child edges of an edge -----

  predicate EdgeChildEdgesDefined(s: Refinement, e: Index) {
    0 <= e && 2 * e + 1 < |s.edgeChildEdgeIndices|
  }

  /** The two child edges of parent edge `e`: the entries at `2e` and `2e+1`. */
  function EdgeChildEdges(s: Refinement, e: Index): (r: seq<Index>)
    requires EdgeChildEdgesDefined(s, e)
    ensures |r| == 2
    ensures r[0] == s.edgeChildEdgeIndices[2 * e] && r[1] == s.edgeChildEdgeIndices[2 * e + 1]
  {
    s.edgeChildEdgeIndices[2 * e..2 * e + 2]
  }

  function EdgeChildEdgesView(s: Refinement, e: Index): (a: IndexArray)
    requires EdgeChildEdgesDefined(s, e)
    ensures a.Valid() && a.backing == s.edgeChildEdgeIndices && a.start == 2 * e
    ensures a.Elements() == EdgeChildEdges(s, e)
  {
    IndexArray(s.edgeChildEdgeIndices, 2 * e, 2)
  }

  /** Writing child edge `k` (0 or 1) of `e`: the shared vector keeps its
      length and changes only at `2e+k`, so the pair of every other edge is
      unchanged. */
  function SetEdgeChildEdge(s: Refinement, e: Index, k: nat, v: Index): (t: Refinement)
    requires EdgeChildEdgesDefined(s, e) && k < 2
    ensures t == s.(edgeChildEdgeIndices := t.edgeChildEdgeIndices)
    ensures EdgeChildEdgesDefined(t, e)
    ensures EdgeChildEdges(t, e) == EdgeChildEdges(s, e)[k := v]
    ensures |t.edgeChildEdgeIndices| == |s.edgeChildEdgeIndices|
    ensures forall p :: 0 <= p < |s.edgeChildEdgeIndices| && p != 2 * e + k ==>
      t.edgeChildEdgeIndices[p] == s.edgeChildEdgeIndices[p]
    ensures forall e' :: EdgeChildEdgesDefined(s, e') && e' != e ==>
      EdgeChildEdgesDefined(t, e') && EdgeChildEdges(t, e') == EdgeChildEdges(s, e')
  {
    s.(edgeChildEdgeIndices := EdgeChildEdgesView(s, e).Set(k, v).backing)
  }

  // ----- child-to-parent -----

  function ChildFaceParentFace(s: Refinement, c: Index): Index
    requires 0 <= c < |s.childFaceParentIndex|
  {
    s.childFaceParentIndex[c]
  }

  /** The ordinal of child face `c` within its parent face, as its two-bit tag field holds it. */
  function ChildFaceInParentFace(s: Refinement, c: Index): (r: int)
    requires 0 <= c < |s.childFaceTag|
    ensures 0 <= r < 4
  {
    s.childFaceTag[c].indexInParent
  }

  function ChildEdgeParentIndex(s: Refinement, c: Index): Index
    requires 0 <= c < |s.childEdgeParentIndex|
  {
    s.childEdgeParentIndex[c]
  }

  function ChildVertexParentIndex(s: Refinement, c: Index): Index
    requires 0 <= c < |s.childVertexParentIndex|
  {
    s.childVertexParentIndex[c]
  }

  // ----- framing of writes through the views -----

  /** With the child-face table packed for `n` parent faces, writing through the
      view of face `f` leaves the child faces of every other face unchanged. */
  lemma SetFaceChildFaceFrame(s: Refinement, n: nat, f: Index, g: Index, k: nat, v: Index)
    requires Packed(s.faceChildFaceCountsAndOffsets, n)
    requires 0 <= f < n && 0 <= g < n && f != g
    requires FaceChildFacesDefined(s, f) && FaceChildFacesDefined(s, g)
    requires k < FaceChildFaceCount(s, f)
    ensures FaceChildFacesDefined(SetFaceChildFace(s, f, k, v), g)
    ensures FaceChildFaces(SetFaceChildFace(s, f, k, v), g) == FaceChildFaces(s, g)
  {
    WriteThroughFrame(s.faceChildFaceCountsAndOffsets, s.faceChildFaceIndices, n, f, g, k, v);
  }

  /** The same for the child edges of faces. */
  lemma SetFaceChildEdgeFrame(s: Refinement, n: nat, f: Index, g: Index, k: nat, v: Index)
    requires Packed(s.faceChildEdgeCountsAndOffsets, n)
    requires 0 <= f < n && 0 <= g < n && f != g
    requires FaceChildEdgesDefined(s, f) && FaceChildEdgesDefined(s, g)
    requires k < FaceChildEdgeCount(s, f)
    ensures FaceChildEdgesDefined(SetFaceChildEdge(s, f, k, v), g)
    ensures FaceChildEdges(SetFaceChildEdge(s, f, k, v), g) == FaceChildEdges(s, g)
  {
    WriteThroughFrame(s.faceChildEdgeCountsAndOffsets, s.faceChildEdgeIndices, n, f, g, k, v);
  }

  /** Writing the child faces of a face never disturbs the child edges of any
      face, and writing the child edges never disturbs the child faces: the two
      accessors read separate tables. */
  lemma FaceChildTablesIndependent(s: Refinement, f: Index, g: Index, k: nat, v: Index)
    requires FaceChildFacesDefined(s, f) && FaceChildEdgesDefined(s, f)
    requires k < FaceChildFaceCount(s, f) && k < FaceChildEdgeCount(s, f)
    ensures FaceChildEdgesDefined(s, g) ==>
      FaceChildEdgesDefined(SetFaceChildFace(s, f, k, v), g)
      && FaceChildEdges(SetFaceChildFace(s, f, k, v), g) == FaceChildEdges(s, g)
    ensures FaceChildFacesDefined(s, g) ==>
      FaceChildFacesDefined(SetFaceChildEdge(s, f, k, v), g)
      && FaceChildFaces(SetFaceChildEdge(s, f, k, v), g) == FaceChildFaces(s, g)
  {
  }
}

=== FILE: tags.dfy ===
/**
  The small records a refinement keeps beside its index tables: the options of
  one refinement pass, the sparse-selection tag of a parent component, the tag
  of a child component describing its parent, and the set of topology
  relations to build.  Each C++ bitfield is a field whose type carries its
  width.
 */
module Tags {
  import opened Wrappers
  import opened Bits

  // ----- refinement options -----

  /** `sparse`: refine only previously selected components (otherwise refine
      uniformly).  `faceTopologyOnly`: build only what defines the child faces. */
  datatype Options = Options(sparse: Bit, faceTopologyOnly: Bit)

  predicate IsSparse(o: Options) {
    o.sparse == 1
  }

  predicate IsUniform(o: Options) {
    !IsSparse(o)
  }

  predicate IsFaceTopologyOnly(o: Options) {
    o.faceTopologyOnly == 1
  }

  /** The default options ask for uniform refinement with full topology. */
  function DefaultOptions(): (o: Options)
    ensures IsUniform(o) && !IsFaceTopologyOnly(o)
  {
    Options(0, 0)
  }

  // ----- sparse selection tags of parent components -----

  /** `selected`: the component was chosen for refinement.  `transitional`: the
      component is next to a refined one; for a face, one bit per edge. */
  datatype SparseTag = SparseTag(selected: Bit, transitional: Nibble)

  predicate IsSelected(t: SparseTag) {
    t.selected == 1
  }

  predicate IsTransitional(t: SparseTag) {
    t.transitional != 0
  }

  /** Bit `q` of the per-edge transitional mask. */
  predicate TransitionalEdge(t: SparseTag, q: nat)
    requires q < 4
  {
    (t.transitional / Pow2(q)) % 2 == 1
  }

  /** A default tag is neither selected nor transitional, on any edge. */
  function DefaultSparseTag(): (t: SparseTag)
    ensures !IsSelected(t) && !IsTransitional(t)
    ensures forall q :: 0 <= q < 4 ==> !TransitionalEdge(t, q)
  {
    SparseTag(0, 0)
  }

  /** The transitional mask is non-zero exactly when one of its four edge bits is set. */
  lemma TransitionalIffSomeEdge(t: SparseTag)
    ensures IsTransitional(t) <==> exists q :: 0 <= q < 4 && TransitionalEdge(t, q)
  {
    assert Pow2(1) == 2 && Pow2(2) == 4 && Pow2(3) == 8;
    var m := t.transitional;
    if m != 0 {
      if m % 2 == 1 {
        assert TransitionalEdge(t, 0);
      } else if (m / 2) % 2 == 1 {
        assert TransitionalEdge(t, 1);
      } else if (m / 4) % 2 == 1 {
        assert TransitionalEdge(t, 2);
      } else {
        assert TransitionalEdge(t, 3);
      }
    }
  }

  // ----- child tags -----

  datatype ComponentKind = Vertex | Edge | Face

  /** The two-bit code of a component kind, in the order vertex, edge, face. */
  function EncodeKind(k: ComponentKind): (c: Crumb)
    ensures c != 3
  {
    match k
    case Vertex => 0
    case Edge => 1
    case Face => 2
  }

  /** The component kind a two-bit code names; the fourth code names none. */
  function DecodeKind(c: Crumb): (r: Option<ComponentKind>)
    ensures r.None? <==> c == 3
  {
    if c == 0 then Some(Vertex)
    else if c == 1 then Some(Edge)
    else if c == 2 then Some(Face)
    else None
  }

  lemma DecodeEncodeKind(k: ComponentKind)
    ensures DecodeKind(EncodeKind(k)) == Some(k)
  {
  }

  lemma EncodeDecodeKind(c: Crumb)
    requires DecodeKind(c).Some?
    ensures EncodeKind(DecodeKind(c).value) == c
  {
  }

  /** Distinct kinds have distinct codes. */
  lemma EncodeKindInjective(a: ComponentKind, b: ComponentKind)
    requires EncodeKind(a) == EncodeKind(b)
    ensures a == b
  {
  }

  /** `incomplete`: the child's neighborhood is truncated by sparse refinement.
      `parentType`: the kind of the parent component.  `indexInParent`: the
      child's ordinal within its parent, kept in two bits. */
  datatype ChildTag = ChildTag(incomplete: Bit, parentType: Crumb, indexInParent: Crumb)

  /** The tag names `parent` as the kind of the child's parent component. */
  predicate NamesParent(t: ChildTag, parent: ComponentKind) {
    t.parentType == EncodeKind(parent)
  }

  /** The tag's index in its parent fits child number `ordinal` among
      `siblings` children.  The two-bit index is the ordinal itself only when
      the parent has at most four children; for more, the index is only said
      to be "iterative", so nothing is required of it. */
  predicate OrdinalMatches(t: ChildTag, ordinal: nat, siblings: nat) {
    siblings <= 4 ==> t.indexInParent == ordinal
  }

  /** The tag describes child number `ordinal` of a parent of kind `parent`
      that has `siblings` children. */
  predicate DescribesChild(t: ChildTag, parent: ComponentKind, ordinal: nat, siblings: nat) {
    NamesParent(t, parent) && OrdinalMatches(t, ordinal, siblings)
  }

  /** The tag a child receives when its three fields are assigned: the ordinal
      is stored in two bits, so it is kept modulo 4.  The tag describes the
      child among any number of siblings. */
  function MakeChildTag(incomplete: bool, parent: ComponentKind, ordinal: nat): (t: ChildTag)
    ensures ToBool(t.incomplete) == incomplete
    ensures DecodeKind(t.parentType) == Some(parent)
    ensures t.indexInParent == ordinal % 4
    ensures forall siblings :: ordinal < siblings ==> DescribesChild(t, parent, ordinal, siblings)
  {
    ChildTag(FromBool(incomplete), EncodeKind(parent), StoreUnsigned(ordinal, 2))
  }

  /** Two ordinals receive the same index in their parent exactly when they differ by a multiple of 4. */
  lemma ChildTagOrdinalCollision(parent: ComponentKind, i: nat, j: nat)
    ensures MakeChildTag(false, parent, i).indexInParent == MakeChildTag(false, parent, j).indexInParent
        <==> (i - j) % 4 == 0
  {
  }

  // ----- relations to subdivide -----

  datatype RelationKind =
    | FaceVertices | FaceEdges | EdgeVertices | EdgeFaces | VertexFaces | VertexEdges

  /** One bit per topology relation of the child level. */
  datatype Relations = Relations(
    faceVertices: Bit, faceEdges: Bit, edgeVertices: Bit,
    edgeFaces: Bit, vertexFaces: Bit, vertexEdges: Bit)

  function Flag(r: Relations, k: RelationKind): Bit {
    match k
    case FaceVertices => r.faceVertices
    case FaceEdges => r.faceEdges
    case EdgeVertices => r.edgeVertices
    case EdgeFaces => r.edgeFaces
    case VertexFaces => r.vertexFaces
    case VertexEdges => r.vertexEdges
  }

  predicate Requested(r: Relations, k: RelationKind) {
    Flag(r, k) == 1
  }

  /** Two relation sets agree on every relation exactly when they are equal. */
  lemma RelationsExtensional(a: Relations, b: Relations)
    ensures (forall k :: Flag(a, k) == Flag(b, k)) <==> a == b
  {
    if forall k :: Flag(a, k) == Flag(b, k) {
      assert Flag(a, FaceVertices) == Flag(b, FaceVertices);
      assert Flag(a, FaceEdges) == Flag(b, FaceEdges);
      assert Flag(a, EdgeVertices) == Flag(b, EdgeVertices);
      assert Flag(a, EdgeFaces) == Flag(b, EdgeFaces);
      assert Flag(a, VertexFaces) == Flag(b, VertexFaces);
      assert Flag(a, VertexEdges) == Flag(b, VertexEdges);
    }
  }

  /** Every relation is requested afterwards exactly when `enable` holds. */
  function SetAll(r: Relations, enable: bool): (s: Relations)
    ensures forall k :: Requested(s, k) == enable
  {
    var b := FromBool(enable);
    Relations(b, b, b, b, b, b)
  }

  lemma SetAllIdempotent(r: Relations, enable: bool)
    ensures SetAll(SetAll(r, enable), enable) == SetAll(r, enable)
  {
  }

  /** The result of `SetAll` does not depend on the flags set before it. */
  lemma SetAllForgetsPrevious(a: Relations, b: Relations, enable: bool)
    ensures SetAll(a, enable) == SetAll(b, enable)
  {
  }
}

=== FILE: wrappers.dfy ===
/** A minimal optional-value type, used where a lookup may find nothing. */
module Wrappers {

  datatype Option<+T> = None | Some(value: T)
}
